=== FILE: README.md ===
# easylog logging engine in Dafny

A model of the logging engine of easylog (`org.garbagecollected.logging`). It covers three parts:

- **Level hierarchy** (`levels.dfy`, module `Levels`). The five levels LITTLE < NORMAL < MUCH < VERY_MUCH < INSANE form the datatype `Level`. The fixed `LOWER_AND_SELF` table is `LowerAndCurrent`, written out entry by entry as in ILog.java. It is proved against an independent reference order, `Rank`. The table is total, contains the level itself, is exactly the levels at or below the level, is downward closed and is monotone.
- **Line formatter** (`formatting.dfy`, module `Formatting`). `FormatOption` is the slot kind. `Format` is a class with the four final fields of Log.java's `Format`: the template with `%n` appended, a defensive copy of the slot array, the reused argument array `formatArguments`, and the all-null array it is reset from. `Fill` is the `for` loop of `constructLine`. It writes the argument array in place with a cursor that only runtime parameters advance. It is proved against the slot rule `SlotFilled`: a level slot gets the level; a thread-id slot gets the thread id; a runtime parameter at slot i gets `provided[k]`, where k counts the runtime parameters before i. The function `Arguments` builds the same list recursively. It is proved to fail exactly when there are more runtime parameters than provided values, and to satisfy the same rule. Extra provided values are proved to be ignored.
- **Logger** (`logging.dfy`, module `Logging`). `Log` is a class whose only mutable state is the enabled set, which starts empty. Its four toggle methods have exact postconditions, including "levels outside the band keep their state". `Publish` refuses a null first message, then a null message array, before it looks at the level. It then does nothing at a disabled level. At an enabled level it appends exactly one line to the output stream (`Sink`), built from the first message followed by the others (`AsList`), or fails and writes nothing, for want of arguments or because the template does not fit the arguments. A pure model of the toggles (`Apply`, `Run`) is used to prove that the four operations can reach every subset of levels from every starting set.

`Failures` (`failures.dfy`) holds the error kinds, `Result`, `Option` and `Precondition`. There is one error kind per `IllegalArgumentException` the model raises, plus `IllegalFormat`, which `Render` raises when the renderer gives no line (String.format's IllegalFormatException). The "Unknown FormatOption" exception (Log.java:179) has no error kind: it needs a null slot, which the model cannot express.

Modelling choices:
- `String.format` is the abstract parameter `render: Renderer`, a function of (template, argument list) that returns a line or a failure. A template that does not fit its arguments makes `String.format` throw; the renderer's failure is passed on by `Line`, `ConstructLine` and `Publish`, which then write nothing.
- `Thread.currentThread().getId()` is the parameter `threadId`.
- Writing and flushing the UTF-8 bytes of a line appends the line to `Sink.lines`.
- A Java `null` is `Value.Null` for messages, `Option.None` for the template and the message array, and a nullable reference (`Format?`, `Sink?`) for the logger's constructor arguments.
- Message objects are represented as `Text` values.
- Log.java:153 refuses only a null template; an empty one is accepted, and so it is in the model.

## Model

| member | source | states |
|---|---|---|
| `Failures.Precondition` | src/org/garbagecollected/logging/Log.java:121-123 | fails with the given error exactly when the condition is false |
| `Levels.LowerAndCurrent` | src/org/garbagecollected/logging/ILog.java:44-56 | the table entry of a level contains the level and is exactly the levels ranked at or below it; all entries lie within the five levels |
| `Levels.TableTotal` | src/org/garbagecollected/logging/ILog.java:46-56 | every level has a non-empty table entry, so the lookup never yields null |
| `Levels.AllLevelsComplete` | src/org/garbagecollected/logging/ILog.java:40 | every set of levels lies within the five levels, so adding all levels gives exactly the five |
| `Levels.BandDownwardClosed` | src/org/garbagecollected/logging/ILog.java:47-51 | anything below a member of a band is in the band |
| `Levels.BandsMonotone` | src/org/garbagecollected/logging/ILog.java:47-51 | a lower level's band is a subset of a higher level's band |
| `Levels.BandExtremes` | src/org/garbagecollected/logging/ILog.java:47-51 | LITTLE's band is {LITTLE}; INSANE's band is all levels and contains every band |
| `Formatting.Arguments` | src/org/garbagecollected/logging/Log.java:166-181 | fails exactly when cursor plus the number of runtime parameters exceeds the provided values, with "not enough arguments" carrying the provided count; otherwise one value per slot, each filled by the slot rule |
| `Formatting.ExtraValuesIgnored` | src/org/garbagecollected/logging/Log.java:171-177 | when the provided values already suffice, appending further values changes neither success nor the argument list |
| `Formatting.Render` | src/org/garbagecollected/logging/Log.java:183 | the rendered line when the renderer gives one, otherwise IllegalFormat |
| `Formatting.Line` | src/org/garbagecollected/logging/Log.java:165-183 | too few provided values fail with "not enough arguments" before rendering; otherwise the result is the rendered line for the template and the one argument list the slot rule fills, or IllegalFormat when the renderer gives no line |
| `Formatting.Format.constructor` | src/org/garbagecollected/logging/Log.java:152-163 | stores template plus `%n` and a fresh copy equal to the slot array; both argument arrays are fresh, of the slot count, and all null |
| `Formatting.Format.Create` | src/org/garbagecollected/logging/Log.java:152-158 | a null template fails first, then an empty slot array; otherwise a valid, clean layout with the template plus `%n` and the given slots |
| `Formatting.Format.Fill` | src/org/garbagecollected/logging/Log.java:166-181 | succeeds exactly when there are enough provided values, and then every slot is filled by the slot rule; on failure it stops at the first runtime parameter whose cursor equals the number of provided values; the earlier slots are filled and the later ones untouched |
| `Formatting.Format.Reset` | src/org/garbagecollected/logging/Log.java:184-187 | the argument array is all null again, its length unchanged |
| `Formatting.Format.ConstructLine` | src/org/garbagecollected/logging/Log.java:165-188 | the result is `Line` of the stored template and slots (a line, "not enough arguments", or IllegalFormat), and the argument array is all null afterwards on every exit |
| `Formatting.Format.ConstructLineAsWritten` | src/org/garbagecollected/logging/Log.java:165-188 | same result, but the array is reset only once rendering is reached; when the values run out, the loop stops at the first runtime parameter whose cursor equals the number of provided values, the slots before it hold this call's values and the slots from it on keep their old values |
| `Formatting.ConstructLineTwice` | src/org/garbagecollected/logging/Log.java:182-187 | two calls in a row of the corrected `ConstructLine` with the same level, thread id and values give the same line, and the array is clean after them |
| `Formatting.LevelAndMessage` | src/org/garbagecollected/logging/LogTest.java:35 | the test layout has slots LEVEL, RUNTIME_PARAMETER, and its template is the level right-aligned to width 9, a separator, the message and `%n` |
| `Formatting.StaleArgumentAsWritten` | src/org/garbagecollected/logging/Log.java:172-187 | as written, a call failing for want of arguments leaves the level in slot 0 |
| `Formatting.NoStaleArgument` | src/org/garbagecollected/logging/Log.java:182-187 | with the reset on every exit, the same failing call leaves slot 0 null |
| `Logging.Sink.Write` | src/org/garbagecollected/logging/Log.java:84-86 | writing a line appends exactly that line to the stream |
| `Logging.AsList` | src/org/garbagecollected/logging/Log.java:125-135 | the list has `msgs.length + 1` entries; entry 0 is the first message and entry i is `msgs[i-1]` |
| `Logging.Apply` | src/org/garbagecollected/logging/Log.java:96-119 | one toggle: the levels it switches (all five, or the band of its level) are all on after an enable and all off after a disable; every other level keeps its state |
| `Logging.Run` | src/org/garbagecollected/logging/Log.java:96-119 | a sequence of toggles applied first to last; a level that no toggle of the sequence switches keeps its state |
| `Logging.EnableSemantics` | src/org/garbagecollected/logging/Log.java:103-105 | after enable(L) a level is on exactly when it is at or below L or was on before; levels above L keep their state |
| `Logging.DisableSemantics` | src/org/garbagecollected/logging/Log.java:117-119 | after disable(L) a level is on exactly when it is above L and was on before |
| `Logging.EnableAllThenDisableAll` | src/org/garbagecollected/logging/Log.java:96-112 | enableAllLevels then disableAllLevels leaves nothing enabled, whatever the prior state |
| `Logging.RunAppend` | src/org/garbagecollected/logging/Log.java:96-119 | running two sequences of toggles in a row is running their concatenation |
| `Logging.PickEffect` | src/org/garbagecollected/logging/Log.java:103-119 | enable(L) followed by disable of the level just below L adds L and clears everything below it |
| `Logging.ReachStep` | src/org/garbagecollected/logging/Log.java:103-119 | picking the next level down extends the part of the target at or above the previous level to the part at or above this one |
| `Logging.EveryEnabledSetReachable` | src/org/garbagecollected/logging/Log.java:96-119 | from any enabled set, the four operations reach any target set of levels |
| `Logging.Log.constructor` | src/org/garbagecollected/logging/Log.java:63-68 | a new logger has no level enabled (the empty set of Log.java:34) and keeps the given layout and stream (the layout must have a clean argument array; see Left out) |
| `Logging.Log.Create` | src/org/garbagecollected/logging/Log.java:63-68 | a null layout fails first, then a null stream; otherwise a fresh logger with an empty enabled set |
| `Logging.Log.EnableAllLevels` | src/org/garbagecollected/logging/Log.java:96-98 | the enabled set becomes all five levels, whatever it was |
| `Logging.Log.DisableAllLevels` | src/org/garbagecollected/logging/Log.java:110-112 | the enabled set becomes empty, whatever it was |
| `Logging.Log.Enable` | src/org/garbagecollected/logging/Log.java:103-105 | the enabled set becomes old ∪ band(L); levels outside the band keep their state |
| `Logging.Log.Disable` | src/org/garbagecollected/logging/Log.java:117-119 | the enabled set becomes old − band(L); levels outside the band keep their state |
| `Logging.Log.Publish` | src/org/garbagecollected/logging/Log.java:73-91 | a null message, then a null array, fails at any level; a disabled level writes nothing; an enabled level appends exactly the rendered line of `[msg] + msgs`, or fails with "not enough arguments" or IllegalFormat and writes nothing |
| `Logging.LogLevelsAndFormatting` | src/org/garbagecollected/logging/LogTest.java:31-51 | after enable(VERY_MUCH), publishing at INSANE, MUCH, VERY_MUCH writes exactly two lines, for MUCH then VERY_MUCH, given that the renderer accepts the test layout's two argument lists |
| `Logging.LineOfLevelAndMessage` | src/org/garbagecollected/logging/Log.java:165-177 | with slots LEVEL, RUNTIME_PARAMETER and one message, the line is the rendering of the level followed by the message |
| `Logging.TooLittleArguments` | src/org/garbagecollected/logging/LogTest.java:53-58 | publishing a null message with every level enabled fails with the null-message error |
| `Logging.TooFewValues` | src/org/garbagecollected/logging/Log.java:171-175 | two runtime parameters and one message at an enabled level fail with "not enough arguments" (1) and write nothing |

## Findings

| source | as written | input that shows it | evidently intended | confidence | as-written member | corrected member |
|---|---|---|---|---|---|---|
| src/org/garbagecollected/logging/Log.java:172-187 | the reset of `formatArguments` sits in a `finally` around `String.format` only; the exception for a missing runtime value leaves the loop before that `try`, so the array keeps the values this call already wrote | slots LEVEL, RUNTIME_PARAMETER, no provided value, level MUCH: afterwards slot 0 still holds MUCH | the comment asks for a clean slate for the next line; the reset should run on every exit | medium, not executed | `Formatting.StaleArgumentAsWritten` (via `Formatting.Format.ConstructLineAsWritten`) | `Formatting.NoStaleArgument` (via `Formatting.Format.ConstructLine`, which `Logging.Log.Publish` uses) |

Every successful call writes every slot before rendering. So the stale value never reaches a rendered line. The effect is that the failed call's arguments stay referenced until a later call overwrites those slots or reaches rendering, whose `finally` resets the whole array. A later call that also fails, at an earlier runtime parameter, leaves them in place.

## Left out

- Rendering by `String.format`, including `%9s` padding and the `%n` line separator, is the abstract parameter `render`, which gives a line or nothing; nothing becomes IllegalFormat. Which templates fit which arguments is not modelled. The lines in the test scenario are stated as `render` of the expected arguments, not as their text.
- `Thread.currentThread().getId()` is a parameter. A Java `long` is modelled as an unbounded `int`.
- UTF-8 encoding, `OutputStream.write`/`flush`, and the `RuntimeException` wrapping of `UnsupportedEncodingException` and `IOException` (Log.java:79-89) are I/O. The sink is a sequence of lines.
- The `Log(Format)` constructor that defaults to `System.out` (Log.java:50-52) uses a global stream.
- The "Unknown FormatOption" branch (Log.java:178-180) is reached in Java only through a null element of the slot array (`new Format("%s", LEVEL, null)` passes both constructor checks). A null slot is not modelled, because `FormatOption` is a closed datatype. That exception also leaves the loop before the `finally`, so it would leave stale values in the argument array too.
- A `null` level passed to `publish`, `enable` or `disable`, and a `null` slot array passed to `Format`, are not modelled: `Level` is a closed datatype and the slot array is a non-null reference.
- Messages other than strings are not modelled separately; every non-null message is a `Text` value.
- Thread safety of the shared argument array and of the enabled set is out of scope: concurrency is not modelled.
- `Logging.Log.Publish` uses the corrected `constructLine`, so the logger keeps its layout's argument array clean between calls. The as-written behaviour is `Formatting.Format.ConstructLineAsWritten`.
- Logging.Log.constructor and Logging.Log.Create require a layout whose argument array is clean. This is stronger than Log.java:63-68, which also accepts a layout left dirty by a failed call. The requirement exists only because the logger uses the corrected `constructLine`, whose reset keeps the array clean.
- The test helper `getTestFormat` (LogTest.java:60-68) is not modelled. The test layout's template `%9s | %s` is given literally.

=== FILE: failures.dfy ===
/**
  The failure conditions of the logging engine. Each IllegalArgumentException
  the model raises is one constructor of `Error` (the "Unknown FormatOption"
  one needs a null slot, which the model has no way to express); operations
  that may throw return a `Result` instead.
 */
module Failures {

  /** One constructor per exception the model raises. */
  datatype Error =
    | NullFormatString          // Format: "format may not be null"
    | NoFormatOptions           // Format: "Need at least one FormatOption"
    | NotEnoughArguments(provided: nat)  // constructLine: "Expecting more arguments than <provided>"
    | NullFormat                // Log: "Format may not be null"
    | NullOutputStream          // Log: "OutputStream may not be null"
    | NullMessage               // publish: "Message may not be null"
    | NullMessages              // publish: "Messages may not be null"
    | IllegalFormat             // String.format: the template does not fit the arguments

  /** A value, or the IllegalArgumentException raised instead of it. */
  datatype Result<T> = Success(value: T) | Failure(error: Error)

  /** A reference that may be null. */
  datatype Option<T> = None | Some(value: T)

  /** Raises `error` exactly when `condition` does not hold. */
  function Precondition(condition: bool, error: Error): (r: Result<()>)
    ensures r.Success? <==> condition
    ensures r.Failure? ==> r.error == error
  {
    if condition then Success(()) else Failure(error)
  }
}

=== FILE: formatting.dfy ===
/**
  The line formatter: the slot kinds of a line template, the rule that says
  which value each slot receives, and the `Format` object that fills its
  reused argument array slot by slot before rendering a line.
 */
module Formatting {
  import opened Failures
  import opened Levels

  /** What a line template's slot shows (Log.FormatOption). */
  datatype FormatOption = LevelSlot | ThreadIdSlot | RuntimeParameter

  /**
    An entry of the argument array handed to the renderer: empty (null), the
    level of the call, the calling thread's id, or a message the caller gave.
   */
  datatype Value = Null | LevelValue(level: Level) | ThreadId(id: int) | Text(text: string)

  /**
    String.format: renders a template with positional arguments, or gives
    nothing when the template does not fit them. Left abstract.
   */
  type Renderer = (string, seq<Value>) -> Option<string>

  /** The renderer's line, or IllegalFormat when the template does not fit the arguments. */
  function Render(render: Renderer, template: string, args: seq<Value>): (r: Result<string>)
    ensures r.Success? <==> render(template, args).Some?
    ensures r.Success? ==> r.value == render(template, args).value
    ensures r.Failure? ==> r.error == IllegalFormat
  {
    match render(template, args)
    case Some(line) => Success(line)
    case None => Failure(IllegalFormat)
  }

  /** Number of RUNTIME_PARAMETER slots in `slots`. */
  function RuntimeCount(slots: seq<FormatOption>): nat
  {
    multiset(slots)[RuntimeParameter]
  }

  /**
    Slot `i` of `args` holds what Log.java's constructLine puts there: the level, the thread
    id, or, for a runtime parameter, the provided value at the cursor, which
    starts at `base` and has moved past every runtime parameter before `i`.
   */
  predicate SlotFilled(slots: seq<FormatOption>, level: Level, threadId: int, provided: seq<Value>,
                       base: nat, args: seq<Value>, i: nat)
    requires i < |slots| && i < |args|
  {
    match slots[i]
    case LevelSlot => args[i] == LevelValue(level)
    case ThreadIdSlot => args[i] == ThreadId(threadId)
    case RuntimeParameter =>
      base + RuntimeCount(slots[..i]) < |provided| && args[i] == provided[base + RuntimeCount(slots[..i])]
  }

  /** The first `n` slots of `args` are filled by the slot rule. */
  predicate FilledUpTo(slots: seq<FormatOption>, level: Level, threadId: int, provided: seq<Value>,
                       base: nat, args: seq<Value>, n: nat)
    requires n <= |slots| && n <= |args|
  {
    forall i :: 0 <= i < n ==> SlotFilled(slots, level, threadId, provided, base, args, i)
  }

  /** Counting the runtime parameters of a prefix one slot longer. */
  lemma RuntimeCountSnoc(slots: seq<FormatOption>, i: nat)
    requires i < |slots|
    ensures RuntimeCount(slots[..i + 1]) == RuntimeCount(slots[..i]) + (if slots[i] == RuntimeParameter then 1 else 0)
  {
    assert slots[..i + 1] == slots[..i] + [slots[i]];
  }

  /** A prefix has no more runtime parameters than the whole. */
  lemma RuntimeCountPrefix(slots: seq<FormatOption>, i: nat)
    requires i <= |slots|
    ensures RuntimeCount(slots[..i]) <= RuntimeCount(slots)
  {
    assert slots == slots[..i] + slots[i..];
  }

  /** Counting the runtime parameters of a prefix of `slots` through `slots[1..]`. */
  lemma RuntimeCountShift(slots: seq<FormatOption>, i: nat)
    requires 1 <= i <= |slots|
    ensures RuntimeCount(slots[..i]) == RuntimeCount(slots[..1]) + RuntimeCount(slots[1..][..i - 1])
  {
    assert slots[..i] == slots[..1] + slots[1..][..i - 1];
  }

  /** Writing slot `i` by the slot rule extends a filled prefix by one. */
  lemma FillStep(slots: seq<FormatOption>, level: Level, threadId: int, provided: seq<Value>,
                 before: seq<Value>, after: seq<Value>, i: nat)
    requires i < |slots| && |before| == |slots| && |after| == |slots|
    requires FilledUpTo(slots, level, threadId, provided, 0, before, i)
    requires forall k :: 0 <= k < i ==> after[k] == before[k]
    requires SlotFilled(slots, level, threadId, provided, 0, after, i)
    ensures FilledUpTo(slots, level, threadId, provided, 0, after, i + 1)
  {
    forall k | 0 <= k < i ensures SlotFilled(slots, level, threadId, provided, 0, after, k) {
      assert SlotFilled(slots, level, threadId, provided, 0, before, k);
    }
  }

  /**
    The argument list of one line, built by walking the slots from the first
    with a cursor into `provided` that only runtime parameters advance; it
    fails as soon as a runtime parameter finds the cursor past the end.
   */
  function Arguments(slots: seq<FormatOption>, level: Level, threadId: int, provided: seq<Value>,
                     cursor: nat): (r: Result<seq<Value>>)
    requires cursor <= |provided|
    ensures r.Failure? <==> cursor + RuntimeCount(slots) > |provided|
    ensures r.Failure? ==> r.error == NotEnoughArguments(|provided|)
    ensures r.Success? ==> |r.value| == |slots| && FilledUpTo(slots, level, threadId, provided, cursor, r.value, |slots|)
    decreases |slots|
  {
    if slots == [] then
      assert multiset(slots) == multiset{};
      Success([])
    else if slots[0] == RuntimeParameter && cursor >= |provided| then
      assert slots == [slots[0]] + slots[1..];
      Failure(NotEnoughArguments(|provided|))
    else
      var v := match slots[0]
        case LevelSlot => LevelValue(level)
        case ThreadIdSlot => ThreadId(threadId)
        case RuntimeParameter => provided[cursor];
      var next := if slots[0] == RuntimeParameter then cursor + 1 else cursor;
      var rest := Arguments(slots[1..], level, threadId, provided, next);
      assert slots == [slots[0]] + slots[1..];
      if rest.Failure? then rest
      else
        ArgumentsStep(slots, level, threadId, provided, cursor, v, rest.value);
        Success([v] + rest.value)
  }

  /** Prepending the first slot's value to a filled rest fills the whole. */
  lemma ArgumentsStep(slots: seq<FormatOption>, level: Level, threadId: int, provided: seq<Value>,
                      cursor: nat, v: Value, rest: seq<Value>)
    requires |slots| >= 1 && |rest| == |slots| - 1
    requires SlotFilled(slots, level, threadId, provided, cursor, [v] + rest, 0)
    requires FilledUpTo(slots[1..], level, threadId, provided,
                        if slots[0] == RuntimeParameter then cursor + 1 else cursor, rest, |rest|)
    ensures FilledUpTo(slots, level, threadId, provided, cursor, [v] + rest, |slots|)
  {
    var next := if slots[0] == RuntimeParameter then cursor + 1 else cursor;
    forall i | 1 <= i < |slots|
      ensures SlotFilled(slots, level, threadId, provided, cursor, [v] + rest, i)
    {
      assert SlotFilled(slots[1..], level, threadId, provided, next, rest, i - 1);
      RuntimeCountShift(slots, i);
      assert RuntimeCount(slots[..1]) == if slots[0] == RuntimeParameter then 1 else 0 by {
        assert slots[..1] == [slots[0]];
      }
    }
  }

  /** The slot rule determines the argument list completely. */
  lemma FilledUnique(slots: seq<FormatOption>, level: Level, threadId: int, provided: seq<Value>,
                     base: nat, a: seq<Value>, b: seq<Value>)
    requires |a| == |slots| && |b| == |slots|
    requires FilledUpTo(slots, level, threadId, provided, base, a, |slots|)
    requires FilledUpTo(slots, level, threadId, provided, base, b, |slots|)
    ensures a == b
  {
    forall i | 0 <= i < |slots| ensures a[i] == b[i] {
      assert SlotFilled(slots, level, threadId, provided, base, a, i);
      assert SlotFilled(slots, level, threadId, provided, base, b, i);
    }
  }

  /**
    Values provided beyond the number of runtime parameters are ignored: they
    change neither success nor the argument list.
   */
  lemma ExtraValuesIgnored(slots: seq<FormatOption>, level: Level, threadId: int,
                           provided: seq<Value>, extra: seq<Value>)
    requires RuntimeCount(slots) <= |provided|
    ensures Arguments(slots, level, threadId, provided + extra, 0) == Arguments(slots, level, threadId, provided, 0)
  {
    var a := Arguments(slots, level, threadId, provided, 0).value;
    var b := Arguments(slots, level, threadId, provided + extra, 0).value;
    forall i | 0 <= i < |slots| ensures SlotFilled(slots, level, threadId, provided + extra, 0, a, i) {
      assert SlotFilled(slots, level, threadId, provided, 0, a, i);
    }
    FilledUnique(slots, level, threadId, provided + extra, 0, a, b);
  }

  /** When the values suffice, the slot rule has exactly one solution, the list `Arguments` builds. */
  lemma ArgumentsIsTheSolution(slots: seq<FormatOption>, level: Level, threadId: int, provided: seq<Value>)
    requires RuntimeCount(slots) <= |provided|
    ensures forall args :: |args| == |slots| && FilledUpTo(slots, level, threadId, provided, 0, args, |slots|) ==>
      args == Arguments(slots, level, threadId, provided, 0).value
  {
    var built := Arguments(slots, level, threadId, provided, 0).value;
    forall args | |args| == |slots| && FilledUpTo(slots, level, threadId, provided, 0, args, |slots|)
      ensures args == built
    {
      FilledUnique(slots, level, threadId, provided, 0, args, built);
    }
  }

  /**
    The line, or the failure, that one call produces: too few values fail
    before anything is rendered; otherwise the template is rendered with the
    argument list that the slot rule fills.
   */
  function Line(template: string, slots: seq<FormatOption>, level: Level, threadId: int,
                provided: seq<Value>, render: Renderer): (r: Result<string>)
    ensures RuntimeCount(slots) > |provided| ==> r == Failure(NotEnoughArguments(|provided|))
    ensures RuntimeCount(slots) <= |provided| ==>
      forall args :: |args| == |slots| && FilledUpTo(slots, level, threadId, provided, 0, args, |slots|) ==>
        r == Render(render, template, args)
  {
    match Arguments(slots, level, threadId, provided, 0)
    case Success(args) =>
      ArgumentsIsTheSolution(slots, level, threadId, provided);
      Render(render, template, args)
    case Failure(e) => Failure(e)
  }

  /**
    A line layout (Log.Format): the template, the slot kinds, the argument
    array reused by every call, and the all-null array it is reset from.
   */
  class Format {
    const template: string
    const lineStructure: array<FormatOption>
    const formatArguments: array<Value>
    const formatArgumentsTemplate: array<Value>

    ghost predicate Valid()
      reads this, lineStructure, formatArgumentsTemplate
    {
      lineStructure.Length > 0 &&
      formatArguments.Length == lineStructure.Length &&
      formatArgumentsTemplate.Length == lineStructure.Length &&
      formatArguments != formatArgumentsTemplate &&
      forall i :: 0 <= i < formatArgumentsTemplate.Length ==> formatArgumentsTemplate[i] == Null
    }

    /** The reused argument array is back to its all-null starting state. */
    ghost predicate Clean()
      reads this, formatArguments
    {
      forall i :: 0 <= i < formatArguments.Length ==> formatArguments[i] == Null
    }

    /** The slot kinds of the layout. */
    function Slots(): seq<FormatOption>
      reads this, lineStructure
    {
      lineStructure[..]
    }

    /**
      Stores the template with the line separator `%n` appended and a private
      copy of the slot kinds, so later changes to `structure` do not reach it.
     */
    constructor (format: string, structure: array<FormatOption>)
      requires structure.Length > 0
      ensures Valid() && Clean()
      ensures template == format + "%n"
      ensures Slots() == structure[..]
      ensures fresh(lineStructure) && fresh(formatArguments) && fresh(formatArgumentsTemplate)
    {
      template := format + "%n";
      var copy := new FormatOption[structure.Length];
      forall i | 0 <= i < structure.Length {
        copy[i] := structure[i];
      }
      lineStructure := copy;
      formatArguments := new Value[structure.Length](_ => Null);
      formatArgumentsTemplate := new Value[structure.Length](_ => Null);
    }

    /**
      The checking public constructor: a null template or an empty slot list is
      refused, in that order; otherwise a new layout as above.
     */
    static method Create(format: Option<string>, structure: array<FormatOption>) returns (r: Result<Format>)
      ensures r.Success? <==> format.Some? && structure.Length > 0
      ensures format.None? ==> r == Failure(NullFormatString)
      ensures format.Some? && structure.Length == 0 ==> r == Failure(NoFormatOptions)
      ensures r.Success? ==> fresh(r.value) && fresh(r.value.lineStructure) && r.value.Valid() && r.value.Clean()
      ensures r.Success? ==> fresh(r.value.formatArguments) && fresh(r.value.formatArgumentsTemplate)
      ensures r.Success? ==> r.value.template == format.value + "%n" && r.value.Slots() == structure[..]
    {
      var c := Precondition(format.Some?, NullFormatString);
      if c.Failure? {
        return Failure(c.error);
      }
      c := Precondition(structure.Length > 0, NoFormatOptions);
      if c.Failure? {
        return Failure(c.error);
      }
      var f := new Format(format.value, structure);
      r := Success(f);
    }

    /**
      The loop of constructLine: writes each slot's value into the argument
      array, moving the cursor only at runtime parameters. It stops at slot
      `stop` when a runtime parameter finds no value left; the slots before it
      are already written and the rest are untouched.
     */
    method Fill(level: Level, provided: seq<Value>, threadId: int) returns (ok: bool, ghost stop: nat)
      requires Valid()
      modifies formatArguments
      ensures Valid()
      ensures ok <==> RuntimeCount(Slots()) <= |provided|
      ensures ok ==> FilledUpTo(Slots(), level, threadId, provided, 0, formatArguments[..], lineStructure.Length)
      ensures !ok ==> stop < lineStructure.Length && Slots()[stop] == RuntimeParameter
      ensures !ok ==> RuntimeCount(Slots()[..stop]) == |provided|
      ensures !ok ==> FilledUpTo(Slots(), level, threadId, provided, 0, formatArguments[..], stop)
      ensures !ok ==> forall k :: stop <= k < formatArguments.Length ==> formatArguments[k] == old(formatArguments[k])
    {
      ghost var slots := Slots();
      var n := lineStructure.Length;
      var i, index := 0, 0;
      while i < n
        invariant 0 <= i <= n
        invariant index == RuntimeCount(slots[..i]) && index <= |provided|
        invariant FilledUpTo(slots, level, threadId, provided, 0, formatArguments[..], i)
        invariant forall k :: i <= k < n ==> formatArguments[k] == old(formatArguments[k])
      {
        ghost var before := formatArguments[..];
        RuntimeCountSnoc(slots, i);
        match lineStructure[i] {
          case LevelSlot =>
            formatArguments[i] := LevelValue(level);
          case ThreadIdSlot =>
            formatArguments[i] := ThreadId(threadId);
          case RuntimeParameter =>
            var position := index;
            if position >= |provided| {
              RuntimeCountPrefix(slots, i + 1);
              return false, i;
            }
            formatArguments[i] := provided[position];
            index := index + 1;
        }
        FillStep(slots, level, threadId, provided, before, formatArguments[..], i);
        i := i + 1;
      }
      assert slots[..n] == slots;
      ok, stop := true, 0;
    }

    /** Puts every entry of the argument array back to null (the arraycopy from the template). */
    method Reset()
      requires Valid()
      modifies formatArguments
      ensures Valid() && Clean()
    {
      forall i | 0 <= i < formatArguments.Length {
        formatArguments[i] := formatArgumentsTemplate[i];
      }
    }

    /**
      constructLine, with the argument array reset on every exit. Too few
      provided values fail before rendering; otherwise the result is the
      renderer's, for the template and the argument list of the slot rule.
     */
    method ConstructLine(level: Level, provided: seq<Value>, threadId: int, render: Renderer)
      returns (r: Result<string>)
      requires Valid()
      modifies formatArguments
      ensures Valid() && Clean()
      ensures r == Line(template, Slots(), level, threadId, provided, render)
    {
      var ok, stop := Fill(level, provided, threadId);
      if ok {
        r := Render(render, template, formatArguments[..]);
      } else {
        r := Failure(NotEnoughArguments(|provided|));
      }
      Reset();
    }

    /**
      constructLine as Log.java writes it: the reset sits in a `finally`
      around the rendering only, so when a runtime parameter finds no value
      the exception leaves the loop with the slots before it holding this
      call's values and the slots from it on as they were.
     */
    method ConstructLineAsWritten(level: Level, provided: seq<Value>, threadId: int, render: Renderer)
      returns (r: Result<string>, ghost stop: nat)
      requires Valid()
      modifies formatArguments
      ensures Valid()
      ensures r == Line(template, Slots(), level, threadId, provided, render)
      ensures RuntimeCount(Slots()) <= |provided| ==> Clean()
      ensures RuntimeCount(Slots()) > |provided| ==>
        stop < lineStructure.Length && Slots()[stop] == RuntimeParameter &&
        RuntimeCount(Slots()[..stop]) == |provided|
      ensures RuntimeCount(Slots()) > |provided| ==>
        FilledUpTo(Slots(), level, threadId, provided, 0, formatArguments[..], stop)
      ensures RuntimeCount(Slots()) > |provided| ==>
        forall k :: stop <= k < formatArguments.Length ==> formatArguments[k] == old(formatArguments[k])
    {
      var ok;
      ok, stop := Fill(level, provided, threadId);
      if !ok {
        return Failure(NotEnoughArguments(|provided|)), stop;
      }
      r := Render(render, template, formatArguments[..]);
      Reset();
    }
  }

  /** Two calls in a row with the same inputs give the same line. */
  method ConstructLineTwice(f: Format, level: Level, provided: seq<Value>, threadId: int, render: Renderer)
    returns (first: Result<string>, second: Result<string>)
    requires f.Valid()
    modifies f.formatArguments
    ensures f.Valid() && f.Clean()
    ensures first == second
  {
    first := f.ConstructLine(level, provided, threadId, render);
    second := f.ConstructLine(level, provided, threadId, render);
  }

  /** The layout used by LogTest.java: a level column, then one message. */
  method LevelAndMessage() returns (f: Format)
    ensures fresh(f) && fresh(f.lineStructure) && fresh(f.formatArguments) && f.Valid() && f.Clean()
    ensures f.Slots() == [LevelSlot, RuntimeParameter]
    ensures f.template == "%9s | %s%n"
  {
    var structure := new FormatOption[2];
    structure[0], structure[1] := LevelSlot, RuntimeParameter;
    f := new Format("%9s | %s", structure);
  }

  /**
    As written, a failing call leaves the level it was given in the argument
    array: with slots LEVEL, RUNTIME_PARAMETER and no provided value, slot 0
    still holds the level after the exception.
   */
  method StaleArgumentAsWritten(render: Renderer) returns (left: Value)
    ensures left == LevelValue(Much)
  {
    var f := LevelAndMessage();
    var r, stop := f.ConstructLineAsWritten(Much, [], 1, render);
    assert f.Slots()[0] == LevelSlot;
    assert SlotFilled(f.Slots(), Much, 1, [], 0, f.formatArguments[..], 0);
    left := f.formatArguments[0];
  }

  /** With the reset on every exit, the same failing call leaves slot 0 null. */
  method NoStaleArgument(render: Renderer) returns (left: Value)
    ensures left == Null
  {
    var f := LevelAndMessage();
    var r := f.ConstructLine(Much, [], 1, render);
    left := f.formatArguments[0];
  }
}

=== FILE: levels.dfy ===
/**
  The verbosity levels and the table that gives, for each level, the band
  made of that level and every level below it.
 */
module Levels {

  /** The five levels, in declaration order: least verbose first. */
  datatype Level = Little | Normal | Much | VeryMuch | Insane

  /**
    Position of a level in the declaration order. The table below does not use
    it; it is the reference order that the table is proved against.
   */
  function Rank(l: Level): nat
  {
    match l
    case Little => 0
    case Normal => 1
    case Much => 2
    case VeryMuch => 3
    case Insane => 4
  }

  /** Every level (`EnumSet.allOf(Level.class)`). */
  const AllLevels: set<Level> := {Little, Normal, Much, VeryMuch, Insane}

  /**
    The fixed band table: a level together with every level ranked below it.
    Written out entry by entry, as the static initializer of ILog.java does.
   */
  function LowerAndCurrent(l: Level): (band: set<Level>)
    ensures l in band
    ensures forall x :: x in band <==> Rank(x) <= Rank(l)
    ensures band <= AllLevels
  {
    match l
    case Little => {Little}
    case Normal => {Little, Normal}
    case Much => {Little, Normal, Much}
    case VeryMuch => {Little, Normal, Much, VeryMuch}
    case Insane => AllLevels
  }

  /** The levels strictly below `l`: the band of `l` without `l` itself. */
  function StrictlyBelow(l: Level): (below: set<Level>)
    ensures forall x :: x in below <==> Rank(x) < Rank(l)
  {
    LowerAndCurrent(l) - {l}
  }

  /** Every level is one of the five, so every lookup finds a non-empty entry. */
  lemma TableTotal(l: Level)
    ensures l in AllLevels
    ensures LowerAndCurrent(l) != {}
  {
  }

  /** No set of levels holds anything outside the five. */
  lemma AllLevelsComplete(s: set<Level>)
    ensures s <= AllLevels
    ensures s + AllLevels == AllLevels
  {
    forall x | x in s ensures x in AllLevels {
      TableTotal(x);
    }
  }

  /** A band is downward closed: whatever is below a member is a member. */
  lemma BandDownwardClosed(l: Level, x: Level, y: Level)
    requires x in LowerAndCurrent(l) && Rank(y) <= Rank(x)
    ensures y in LowerAndCurrent(l)
  {
  }

  /** Bands grow with the level. */
  lemma BandsMonotone(l1: Level, l2: Level)
    requires Rank(l1) <= Rank(l2)
    ensures LowerAndCurrent(l1) <= LowerAndCurrent(l2)
  {
  }

  /** The smallest band holds only LITTLE; the largest holds every level. */
  lemma BandExtremes()
    ensures LowerAndCurrent(Little) == {Little}
    ensures LowerAndCurrent(Insane) == AllLevels
    ensures forall l :: LowerAndCurrent(l) <= LowerAndCurrent(Insane)
  {
  }
}

=== FILE: logging.dfy ===
/**
  The logger: the set of enabled levels and the four operations that change
  it, the output stream that receives one line per enabled publish, and the
  checks publish makes before it looks at the level.
 */
module Logging {
  import opened Failures
  import opened Levels
  import opened Formatting

  /**
    The output stream handed to a logger. Writing and flushing one encoded
    line is modelled as appending that line.
   */
  class Sink {
    var lines: seq<string>

    constructor ()
      ensures lines == []
    {
      lines := [];
    }

    method Write(line: string)
      modifies this
      ensures lines == old(lines) + [line]
    {
      lines := lines + [line];
    }
  }

  /**
    The message list of one publish call: the first message followed by the
    others, indexed as the list view of Log.java's asList does.
   */
  function AsList(msg: Value, msgs: seq<Value>): (messages: seq<Value>)
    ensures |messages| == |msgs| + 1
    ensures messages[0] == msg
    ensures forall i :: 1 <= i < |messages| ==> messages[i] == msgs[i - 1]
  {
    [msg] + msgs
  }

  /** The four operations that change the enabled set. */
  datatype Toggle = EnableAll | DisableAll | EnableLevel(level: Level) | DisableLevel(level: Level)

  /** The levels an operation switches: all five, or the band of its level. */
  function Band(op: Toggle): set<Level>
  {
    match op
    case EnableAll => AllLevels
    case DisableAll => AllLevels
    case EnableLevel(l) => LowerAndCurrent(l)
    case DisableLevel(l) => LowerAndCurrent(l)
  }

  /**
    The enabled set after one operation: the levels it switches are all on
    (enabling) or all off (disabling), and every other level keeps its state.
   */
  function Apply(enabled: set<Level>, op: Toggle): (r: set<Level>)
    ensures forall x :: x in Band(op) ==> (x in r <==> op.EnableAll? || op.EnableLevel?)
    ensures forall x :: x !in Band(op) ==> (x in r <==> x in enabled)
  {
    match op
    case EnableAll =>
      AllLevelsComplete(enabled);
      enabled + AllLevels
    case DisableAll =>
      AllLevelsComplete(enabled);
      {}
    case EnableLevel(l) => enabled + LowerAndCurrent(l)
    case DisableLevel(l) => enabled - LowerAndCurrent(l)
  }

  /** Every level that some operation of `ops` switches. */
  function Touched(ops: seq<Toggle>): set<Level>
    decreases |ops|
  {
    if ops == [] then {} else Band(ops[0]) + Touched(ops[1..])
  }

  /**
    The enabled set after a sequence of operations, applied first to last. A
    level that no operation switches keeps its state throughout.
   */
  function Run(enabled: set<Level>, ops: seq<Toggle>): (r: set<Level>)
    ensures forall x :: x !in Touched(ops) ==> (x in r <==> x in enabled)
    decreases |ops|
  {
    if ops == [] then enabled else Run(Apply(enabled, ops[0]), ops[1..])
  }

  /** enable(L): L and every level below it are on; the levels above L keep their state. */
  lemma EnableSemantics(enabled: set<Level>, l: Level, x: Level)
    ensures x in Apply(enabled, EnableLevel(l)) <==> Rank(x) <= Rank(l) || x in enabled
    ensures Rank(l) < Rank(x) ==> (x in Apply(enabled, EnableLevel(l)) <==> x in enabled)
  {
  }

  /** disable(L): L and every level below it are off; the levels above L keep their state. */
  lemma DisableSemantics(enabled: set<Level>, l: Level, x: Level)
    ensures x in Apply(enabled, DisableLevel(l)) <==> Rank(l) < Rank(x) && x in enabled
    ensures Rank(l) < Rank(x) ==> (x in Apply(enabled, DisableLevel(l)) <==> x in enabled)
  {
  }

  /** enableAllLevels followed by disableAllLevels leaves nothing enabled, whatever came before. */
  lemma EnableAllThenDisableAll(enabled: set<Level>)
    ensures Run(enabled, [EnableAll, DisableAll]) == {}
  {
    assert [EnableAll, DisableAll][1..] == [DisableAll];
  }

  /** Running two sequences of operations one after the other. */
  lemma {:induction false} RunAppend(enabled: set<Level>, a: seq<Toggle>, b: seq<Toggle>)
    ensures Run(enabled, a + b) == Run(Run(enabled, a), b)
    decreases |a|
  {
    if a == [] {
      assert a + b == b;
    } else {
      assert (a + b)[1..] == a[1..] + b;
      RunAppend(Apply(enabled, a[0]), a[1..], b);
    }
  }

  /** Operations that switch on `l` and switch off everything below it. */
  function Isolate(l: Level): seq<Toggle>
  {
    match l
    case Little => [EnableLevel(Little)]
    case Normal => [EnableLevel(Normal), DisableLevel(Little)]
    case Much => [EnableLevel(Much), DisableLevel(Normal)]
    case VeryMuch => [EnableLevel(VeryMuch), DisableLevel(Much)]
    case Insane => [EnableLevel(Insane), DisableLevel(VeryMuch)]
  }

  /** `Isolate(l)` when `l` belongs to `target`, nothing otherwise. */
  function Pick(l: Level, target: set<Level>): seq<Toggle>
  {
    if l in target then Isolate(l) else []
  }

  /** A program that reaches `target` from any enabled set: clear, then add members from the top down. */
  function Reach(target: set<Level>): seq<Toggle>
  {
    [DisableAll] + Pick(Insane, target) + Pick(VeryMuch, target) + Pick(Much, target)
      + Pick(Normal, target) + Pick(Little, target)
  }

  /** `Pick(l, target)` adds `l` when it is in `target`, and clears every level below `l`. */
  lemma PickEffect(enabled: set<Level>, l: Level, target: set<Level>)
    ensures Run(enabled, Pick(l, target)) ==
      if l in target then (enabled - StrictlyBelow(l)) + {l} else enabled
  {
    if l in target {
      var ops := Isolate(l);
      var first := Apply(enabled, ops[0]);
      assert first == enabled + LowerAndCurrent(l);
      if l == Little {
        assert ops[1..] == [];
        assert first == (enabled - StrictlyBelow(l)) + {l};
      } else {
        assert ops[1..][1..] == [];
        assert Run(first, ops[1..]) == Run(Apply(first, ops[1]), []);
        assert Run(enabled, ops) == Apply(first, ops[1]);
        assert Apply(first, ops[1]) == first - StrictlyBelow(l);
      }
    } else {
      assert Pick(l, target) == [];
    }
  }

  /** The levels of `target` at or above `l`. */
  function AtOrAbove(target: set<Level>, l: Level): (r: set<Level>)
    ensures forall x :: x in r <==> x in target && Rank(l) <= Rank(x)
  {
    set x | x in target && Rank(l) <= Rank(x)
  }

  /** Picking the next level down extends the top part of `target` reached so far by one level. */
  lemma ReachStep(enabled: set<Level>, p: seq<Toggle>, l: Level, above: Level, target: set<Level>)
    requires Rank(above) == Rank(l) + 1
    requires Run(enabled, p) == AtOrAbove(target, above)
    ensures Run(enabled, p + Pick(l, target)) == AtOrAbove(target, l)
  {
    RunAppend(enabled, p, Pick(l, target));
    PickEffect(Run(enabled, p), l, target);
  }

  /**
    The four operations reach every subset of the levels from every enabled
    set, non-contiguous ones included.
   */
  lemma EveryEnabledSetReachable(enabled: set<Level>, target: set<Level>)
    ensures Run(enabled, Reach(target)) == target
  {
    var p0 := [DisableAll];
    var p1 := p0 + Pick(Insane, target);
    var p2 := p1 + Pick(VeryMuch, target);
    var p3 := p2 + Pick(Much, target);
    var p4 := p3 + Pick(Normal, target);
    assert Reach(target) == p4 + Pick(Little, target);
    assert Run(enabled, p0) == {} by {
      assert p0[1..] == [];
    }
    RunAppend(enabled, p0, Pick(Insane, target));
    PickEffect({}, Insane, target);
    assert Run(enabled, p1) == AtOrAbove(target, Insane);
    ReachStep(enabled, p1, VeryMuch, Insane, target);
    ReachStep(enabled, p2, Much, VeryMuch, target);
    ReachStep(enabled, p3, Normal, Much, target);
    ReachStep(enabled, p4, Little, Normal, target);
  }

  /**
    The logger (Log): the enabled levels, starting empty, the line layout and
    the output stream, which the logger writes to but does not own.
   */
  class Log {
    var enabled: set<Level>
    const format: Format
    const os: Sink

    /** The layout is well formed and its argument array is clean between calls. */
    ghost predicate Valid()
      reads this, format, format.lineStructure, format.formatArguments, format.formatArgumentsTemplate
    {
      format.Valid() && format.Clean()
    }

    constructor (format: Format, os: Sink)
      requires format.Valid() && format.Clean()
      ensures Valid()
      ensures enabled == {}
      ensures this.format == format && this.os == os
    {
      enabled := {};
      this.format := format;
      this.os := os;
    }

    /** The checking public constructor: a null layout, then a null stream, is refused. */
    static method Create(format: Format?, os: Sink?) returns (r: Result<Log>)
      requires format != null ==> format.Valid() && format.Clean()
      ensures r.Success? <==> format != null && os != null
      ensures format == null ==> r == Failure(NullFormat)
      ensures format != null && os == null ==> r == Failure(NullOutputStream)
      ensures r.Success? ==> fresh(r.value) && r.value.Valid() && r.value.enabled == {}
      ensures r.Success? ==> r.value.format == format && r.value.os == os
    {
      var c := Precondition(format != null, NullFormat);
      if c.Failure? {
        return Failure(c.error);
      }
      c := Precondition(os != null, NullOutputStream);
      if c.Failure? {
        return Failure(c.error);
      }
      var log := new Log(format, os);
      r := Success(log);
    }

    /** enableAllLevels: every level is on. */
    method EnableAllLevels()
      modifies this
      ensures Valid() == old(Valid())
      ensures enabled == AllLevels
      ensures enabled == Apply(old(enabled), EnableAll)
    {
      AllLevelsComplete(enabled);
      enabled := enabled + AllLevels;
    }

    /** disableAllLevels: no level is on. */
    method DisableAllLevels()
      modifies this
      ensures Valid() == old(Valid())
      ensures enabled == {}
      ensures enabled == Apply(old(enabled), DisableAll)
    {
      enabled := {};
    }

    /** enable(level): the band of `level` is added; other levels keep their state. */
    method Enable(level: Level)
      modifies this
      ensures Valid() == old(Valid())
      ensures enabled == old(enabled) + LowerAndCurrent(level)
      ensures enabled == Apply(old(enabled), EnableLevel(level))
      ensures forall x :: x !in LowerAndCurrent(level) ==> (x in enabled <==> x in old(enabled))
    {
      enabled := enabled + LowerAndCurrent(level);
    }

    /** disable(level): the band of `level` is removed; other levels keep their state. */
    method Disable(level: Level)
      modifies this
      ensures Valid() == old(Valid())
      ensures enabled == old(enabled) - LowerAndCurrent(level)
      ensures enabled == Apply(old(enabled), DisableLevel(level))
      ensures forall x :: x !in LowerAndCurrent(level) ==> (x in enabled <==> x in old(enabled))
    {
      enabled := enabled - LowerAndCurrent(level);
    }

    /**
      publish: a null first message, then a null message array, is refused
      whatever the level; at a disabled level nothing else happens; at an
      enabled level the line built from the first message followed by the
      others is written, unless the layout has more runtime parameters than
      there are messages or the template does not fit the arguments; either
      failure writes nothing.
     */
    method Publish(level: Level, msg: Value, msgs: Option<seq<Value>>, threadId: int, render: Renderer)
      returns (r: Result<()>)
      requires Valid()
      modifies os, format.formatArguments
      ensures Valid()
      ensures msg == Null ==> r == Failure(NullMessage)
      ensures msg != Null && msgs.None? ==> r == Failure(NullMessages)
      ensures msg != Null && msgs.Some? && level !in enabled ==> r == Success(())
      ensures msg != Null && msgs.Some? && level in enabled ==>
        var line := Line(format.template, format.Slots(), level, threadId, AsList(msg, msgs.value), render);
        (line.Failure? ==> r == Failure(line.error)) &&
        (line.Success? ==> r.Success? && os.lines == old(os.lines) + [line.value])
      ensures r.Failure? || level !in enabled ==> os.lines == old(os.lines)
    {
      var c := Precondition(msg != Null, NullMessage);
      if c.Failure? {
        return Failure(c.error);
      }
      c := Precondition(msgs.Some?, NullMessages);
      if c.Failure? {
        return Failure(c.error);
      }
      if level in enabled {
        var messages := AsList(msg, msgs.value);
        var line := format.ConstructLine(level, messages, threadId, render);
        if line.Failure? {
          return Failure(line.error);
        }
        os.Write(line.value);
      }
      r := Success(());
    }
  }

  /** The message of LogTest.java. */
  const Hello: Value := Text("Hello, Log!")

  /**
    LogTest.java's level-and-formatting test: after enable(VERY_MUCH), publishing
    at INSANE, MUCH and VERY_MUCH writes two lines, for MUCH then VERY_MUCH.
   */
  method LogLevelsAndFormatting(threadId: int, render: Renderer) returns (lines: seq<string>)
    requires render("%9s | %s%n", [LevelValue(Much), Hello]).Some?
    requires render("%9s | %s%n", [LevelValue(VeryMuch), Hello]).Some?
    ensures lines == [render("%9s | %s%n", [LevelValue(Much), Hello]).value,
                      render("%9s | %s%n", [LevelValue(VeryMuch), Hello]).value]
  {
    var f := LevelAndMessage();
    var out := new Sink();
    var log := new Log(f, out);
    log.Enable(VeryMuch);
    assert Insane !in log.enabled && Much in log.enabled && VeryMuch in log.enabled;
    var r1 := log.Publish(Insane, Hello, Some([]), threadId, render);
    assert out.lines == [];
    LineOfLevelAndMessage(Much, threadId, render);
    var r2 := log.Publish(Much, Hello, Some([]), threadId, render);
    assert out.lines == [render("%9s | %s%n", [LevelValue(Much), Hello]).value];
    LineOfLevelAndMessage(VeryMuch, threadId, render);
    var r3 := log.Publish(VeryMuch, Hello, Some([]), threadId, render);
    lines := out.lines;
  }

  /** The line of the test layout for one level and the test message. */
  lemma LineOfLevelAndMessage(level: Level, threadId: int, render: Renderer)
    ensures Line("%9s | %s%n", [LevelSlot, RuntimeParameter], level, threadId, AsList(Hello, []), render)
         == Render(render, "%9s | %s%n", [LevelValue(level), Hello])
  {
    var slots := [LevelSlot, RuntimeParameter];
    var args := Arguments(slots, level, threadId, [Hello], 0).value;
    assert AsList(Hello, []) == [Hello];
    assert SlotFilled(slots, level, threadId, [Hello], 0, args, 0);
    assert SlotFilled(slots, level, threadId, [Hello], 0, args, 1);
    assert slots[..1] == [LevelSlot];
    assert args == [LevelValue(level), Hello];
  }

  /**
    LogTest.java's test of too few arguments: publishing a null message with
    every level enabled is refused by the null-message check.
   */
  method TooLittleArguments(threadId: int, render: Renderer) returns (r: Result<()>)
    ensures r == Failure(NullMessage)
  {
    var f := LevelAndMessage();
    var out := new Sink();
    var log := new Log(f, out);
    log.EnableAllLevels();
    r := log.Publish(VeryMuch, Null, Some([]), threadId, render);
  }

  /**
    A layout with two runtime parameters, published at an enabled level with
    only a first message, fails for want of arguments and writes nothing.
   */
  method TooFewValues(threadId: int, render: Renderer) returns (r: Result<()>, lines: seq<string>)
    ensures r == Failure(NotEnoughArguments(1))
    ensures lines == []
  {
    var structure := new FormatOption[2];
    structure[0], structure[1] := RuntimeParameter, RuntimeParameter;
    var f := new Format("%s %s", structure);
    var out := new Sink();
    var log := new Log(f, out);
    log.EnableAllLevels();
    assert multiset(f.Slots())[RuntimeParameter] == 2 by {
      assert f.Slots() == [RuntimeParameter] + [RuntimeParameter];
    }
    r := log.Publish(Little, Hello, Some([]), threadId, render);
    lines := out.lines;
  }
}
